=== FILE: README.md ===
# angular-chart-responsive: the reactive update layer, in Dafny

This project models the logic of the `angular-chart-responsive` directives. It
excludes the DOM, Angular and the charting library. Each directive binds one
canvas to at most one chart object of the Chart.js library. Two watch callbacks
keep that chart in step with the bound scope attributes:

- the `data` watch returns early when the new value is empty or absent, its
  first series is empty for a multi-series directive, or no type is known;
  otherwise it either mutates the held chart in place or destroys any held
  chart and builds a new one;
- the `chartType` watch ignores a falsy type; given a truthy one it never
  mutates in place: it destroys any held chart and builds a new one, or
  throws while building the payload and leaves the destroyed chart held.

The model has six modules:

- `JsValues` holds the JavaScript semantics the logic depends on: `undefined`,
  truthiness, array reads past the end, own versus inherited properties, and a
  TypeError escaping a callback (`Outcome.Threw`). A bound `data` element is a
  number or an array of numbers (`Datum`). So `newVal[0].length` and
  `values[i][j]` mean exactly what they mean in the script.
- `ChartTypes` holds `hasDataSets` and the `indexOf` it relies on.
- `Decision` holds `canUpdateChart`, the update-versus-recreate heuristic.
- `Adapters` holds `clone`, `getDataSets` and `getData`. These turn the scope
  into the payload the library's constructors take.
- `ChartUpdate` holds `updateColors` and `updateChart`. The library's chart
  object is an abstract record: datasets of points or bars for Line, Bar and
  Radar, segments for Doughnut, Pie and PolarArea, and a count of `update()`
  calls. `updateChart` stops at the first TypeError. Writes made before the
  throw stay in place (`Effect`), as they do in the script.
- `Binding` holds the two watch callbacks. They form a state machine over the
  closure variable `chart` (`Absent | Present(kind, chart, destroyed)`). Each
  callback records the library calls it makes as `Destroy`, `Create(kind)` or
  `Update`, or `Throw` when a TypeError escapes. A replay automaton over that
  log (`Wellformed`) and its declarative reading (`OneLiveChart`) state that a
  binding never holds two live charts.

Three behaviours of the code are easy to miss, and the model keeps them:

- An empty or absent new `data` value makes the `data` watch return without
  acting (lines 62-64), whatever the old value was. So of the emptiness tests
  in `canUpdateChart` (line 94), only the one on the old value can decide:
  with a chart held and a usable new value, an empty or absent old value
  forces a rebuild.
- The early return for an empty first series tests the directive's own type
  (line 62), not the effective type `type || scope.chartType`. The generic
  `chart-base` directive with `chartType` "Line" therefore still builds a chart
  from `[[]]` (`Binding.GenericDirectiveSkipsFirstSeriesGuard`).
- `chart.destroy()` runs before `createChart`. When building the payload throws,
  `chart` keeps pointing at the destroyed chart, and the next rebuild destroys
  it again (`Binding.FailedCreateKeepsDestroyedChart`). Since `chart` is still
  truthy, a compatible `data` change before that rebuild runs `updateChart`
  and `update()` on the destroyed chart instead of building a new one (lines
  70-72, `Binding.UpdateReachesDestroyedChart`). The lifecycle log records
  this as an `Update` while no chart is alive; the replay automaton only
  constrains `Create` and `Destroy`, so such a log still replays.

Every value in the model is immutable. The palette entry that `getDataSets`
copies therefore cannot be aliased by the dataset built from it. The copy being
a fresh object is a matter of value semantics here. `Clone`'s contract states
what the copy holds: exactly the own properties, with inherited ones dropped.

## Model

| member | source | states |
|---|---|---|
| ChartTypes.IndexOf | angular-chart-responsive.js:164 | `indexOf` returns -1 exactly when the element is absent; otherwise it returns the first position holding it |
| ChartTypes.HasDataSets | angular-chart-responsive.js:163-165 | true exactly for "Line", "Bar" and "Radar"; false for "Doughnut", "Pie", "PolarArea" and `undefined` |
| Decision.CanUpdateChart | angular-chart-responsive.js:93-100 | false when either value is absent or empty; for single-series types true iff the outer lengths agree; for multi-series types true iff the outer lengths and the first series' lengths agree |
| Decision.CanUpdateChartSymmetric | angular-chart-responsive.js:93-100 | swapping old and new values never changes the decision |
| Decision.CanUpdateChartReflexive | angular-chart-responsive.js:93-100 | a value compared with itself is updatable iff it is a non-empty array |
| Decision.RaggedChangeIsUpdatable | angular-chart-responsive.js:95-96 | line-chart shapes [3, 3] and [3, 4] count as compatible |
| Decision.OnlyFirstSeriesIsCompared | angular-chart-responsive.js:95-96 | any multi-series values with equal outer length and equal first-series length are updatable, whatever the other series hold |
| Adapters.Clone | angular-chart-responsive.js:180-188 | the copy has exactly the source's own keys and values and inherits nothing; reading any key of the copy gives the source's own value or `undefined`; cloning `undefined` gives an empty object |
| Adapters.GetDataSets | angular-chart-responsive.js:167-178 | throws iff `data` is undefined; otherwise gives one dataset per series. Dataset `i` has label `series[i]` (`undefined` past the end) and data `data[i]`, and its other fields are exactly the own fields of palette entry `i`. The palette is the bound colours, or the defaults when none are bound. Labels pass through unchanged |
| Adapters.SegmentsFrom | angular-chart-responsive.js:192-199 | the `labels.map` loop from index `i` succeeds iff no label is left, or data is defined and the palette covers every label; item `k` carries label, value, stroke colour and highlight at index `i + k` |
| Adapters.GetData | angular-chart-responsive.js:190-200 | succeeds iff labels are defined and, when there is any label, data is defined and the palette has an entry per label; then gives one segment per label with `value = data[i]`, `color = strokeColor`, `highlight = pointHighlightStroke` of palette entry `i` |
| ChartUpdate.UpdateColors | angular-chart-responsive.js:155-161 | throws iff the palette entry is undefined; otherwise sets exactly the five style fields from the entry and keeps every other field |
| ChartUpdate.UpdateDataSet | angular-chart-responsive.js:136-143 | one dataset fails iff colours are bound without entry `i`, or it has points and `values[i]` is missing. On success it is recoloured when colours are bound, and point `j` gets `values[i][j]` with its style kept. On a throw no point is written; the dataset is recoloured exactly when colours are bound and entry `i` exists |
| ChartUpdate.UpdateDataSetsFrom | angular-chart-responsive.js:136-143 | the dataset loop succeeds iff every remaining dataset fits, and then updates each one. On a throw there is a first failing dataset: the datasets before it are fully updated, the failing one keeps its points and is recoloured exactly when its palette entry exists, and the ones after it are untouched |
| ChartUpdate.UpdateSegmentsFrom | angular-chart-responsive.js:145-150 | the segment loop throws iff colours are bound and fewer than the segments. Otherwise segment `k` gets value `values[k]` and is recoloured when colours are bound. On a throw, the segments before the first missing palette entry are updated; the failing one keeps its new value but not its colours; the later ones are untouched |
| ChartUpdate.UpdateChart | angular-chart-responsive.js:134-153 | throws iff the chart's structure does not match the type or an entry is missing. The numbers of datasets, points and segments never change. `update()` runs exactly once, and only on success. On success every point or segment holds the new value at its index and the five style fields come from the palette. A chart of the wrong structure is left as it was. When a dataset or segment throws, the ones before it stay updated, the failing one is left as the loop rows above state, and the later ones are untouched |
| ChartUpdate.RecoloredTwice | angular-chart-responsive.js:155-161 | applying the same palette entry twice gives the same fields as applying it once |
| ChartUpdate.UpdateChartIdempotent | angular-chart-responsive.js:134-153 | repeating a successful update with the same values and colours changes nothing but the redraw count |
| Binding.CreatePayload | angular-chart-responsive.js:104-106 | a multi-series type gets datasets and any other type gets segments; for a multi-series type it throws iff `data` is undefined, keeps the labels, and names dataset `i` by `series[i]`, or `undefined` when no series are bound or the list is short; for other types it succeeds iff labels are defined and, when any exist, data is defined and the palette covers them |
| Binding.Recreate | angular-chart-responsive.js:84-87 | a held chart is destroyed before anything else. Exactly one chart of the requested type is then created, built from the payload, or else a TypeError escapes and the closure keeps the same chart and kind, now marked destroyed (nothing when none was held). The event log stays consistent with the slot |
| Binding.OnData | angular-chart-responsive.js:61-78 | no event and no change iff the data is absent or empty, the directive's multi-series first series is empty, or no type is known. A held chart with a compatible change gets only an in-place update (or a throw). Otherwise a held chart is destroyed and then exactly one chart of the effective type is created, unless building the payload throws, which leaves the same chart and kind in the closure marked destroyed. The lifecycle replay is preserved |
| Binding.OnChartType | angular-chart-responsive.js:80-88 | a falsy type does nothing; otherwise a held chart is destroyed first and the only chart created has the new type; a throwing payload leaves the same chart and kind in the closure marked destroyed; never an in-place update; the lifecycle replay is preserved |
| Binding.RunKeepsLifecycle | angular-chart-responsive.js:61-88 | any sequence of watch firings emits a log that replays with no second live chart, and it ends live exactly when the closure holds a live chart |
| Binding.WellformedHasOneLiveChart | angular-chart-responsive.js:70-77 | a log that replays cleanly has a destruction between any two creations |
| Binding.AtMostOneLiveChart | angular-chart-responsive.js:61-88 | from a fresh binding, every run of the watches destroys the current chart before creating the next |
| Binding.SingleSeriesUpdateWritesEveryValue | angular-chart-responsive.js:144-150 | after a compatible single-series change, a chart with one segment per old value and a covering palette gets every new value, none `undefined` |
| Binding.MultiSeriesUpdateWritesEveryValue | angular-chart-responsive.js:136-143 | when every series matches its dataset's length, every point gets its new number |
| Binding.RaggedUpdateWritesUndefined | angular-chart-responsive.js:140-142 | a shorter second series passes the compatibility test, and the update writes `undefined` into the dataset's last point |
| Binding.GenericDirectiveSkipsFirstSeriesGuard | angular-chart-responsive.js:62-68 | the generic directive with type "Line" acts on `[[]]`; the line directive ignores it |
| Binding.UpdateReachesDestroyedChart | angular-chart-responsive.js:70-72 | a binding holding a destroyed chart takes a compatible `data` change as an in-place update: it emits only `Update`, redraws the destroyed chart once, and leaves no live chart |
| Binding.FailedCreateKeepsDestroyedChart | angular-chart-responsive.js:84-87 | a throwing rebuild leaves the destroyed chart in the closure, and the next rebuild destroys it again before creating |

## Left out

- Container wrapping and relocation of the canvas (lines 56-59): DOM plumbing.
- Legend generation and insertion (lines 116-118, 122-132): DOM plumbing over the library's `generateLegend`.
- The click handler and hit-testing (lines 108-115): event wiring over library methods the model cannot see.
- Module and directive registration, the `chartConfig` provider and the writes to `Chart.defaults.global` (lines 5-39). The default palette is a parameter (`Library.palette`).
- Chart construction, `getContext('2d')`, rendering and `destroy()` internals (lines 103, 107). The constructor is an abstract total function (`Library.construct`). An unknown type name, which would make `new Chart(ctx)[type]` throw, is not modelled. `scope.options` is not passed on.
- Angular's deep-equality watch, digest timing, the first firing with `newVal === oldVal`, and the order of the two watches within one digest. The model takes the `(scope, oldVal)` pairs of each firing as input, in any order.
- Bound `data` elements that are `null`, `undefined` or nested deeper than one level, and non-integer numbers. `Datum` covers integers and arrays of integers only, so the TypeError of `null.length` is not modelled.
- Labels and series names are strings, and palette fields are strings or `undefined`. Other value kinds are not modelled.
- Which of `points` or `bars` a dataset exposes (line 140). Both are one abstract sequence of items.

=== FILE: adapters.dfy ===
/** Shape adapters: the bound scope values become the payload the charting
    library's constructors expect, a list of datasets for multi-series types
    and a list of segments for single-series types. */
module Adapters {
  import opened JsValues

  /** One dataset handed to a multi-series constructor: a copy of the
      palette entry's own fields plus the injected `label` and `data`. */
  datatype DataSetSpec = DataSetSpec(style: Props, seriesLabel: Js<string>, data: Datum)

  /** One segment handed to a single-series constructor. */
  datatype SegmentSpec = SegmentSpec(segmentLabel: string, value: Js<Datum>, color: Js<string>, highlight: Js<string>)

  datatype Payload =
    | DataSets(labels: Js<seq<string>>, datasets: seq<DataSetSpec>)
    | Segments(items: seq<SegmentSpec>)

  /** `colors || Chart.defaults.global.colors`. */
  function Palette(colors: Js<seq<JsObject>>, defaults: seq<JsObject>): seq<JsObject>
  {
    OrArray(colors, defaults)
  }

  /** The keys a `for..in` loop visits. */
  function EnumerableKeys(o: JsObject): set<string>
  {
    o.own.Keys + o.inherited.Keys
  }

  /** The own keys of a palette entry; `undefined` has none. */
  function OwnKeys(entry: Js<JsObject>): set<string>
  {
    if entry.Defined? then entry.value.own.Keys else {}
  }

  /** `clone(obj)`: a fresh plain object holding every enumerable key that
      passes `hasOwnProperty`. A `for..in` over `undefined` visits nothing. */
  function Clone(obj: Js<JsObject>): (r: JsObject)
    ensures r.inherited == map[]
    ensures r.own.Keys == OwnKeys(obj)
    ensures obj.Defined? ==> r.own == obj.value.own
    ensures forall key :: Read(r, key) == (if obj.Defined? && key in obj.value.own then obj.value.own[key] else Undefined)
  {
    match obj
    case Undefined => JsObject(map[], map[])
    case Defined(o) =>
      var own := map key | key in EnumerableKeys(o) && key in o.own :: o.own[key];
      assert own.Keys == o.own.Keys;
      JsObject(own, map[])
  }

  /** The style of a dataset holds exactly the own fields of its palette
      entry, except the `label` and `data` keys the adapter overwrites. */
  ghost predicate CopiesOwnFields(style: Props, entry: Js<JsObject>)
  {
    && style.Keys == OwnKeys(entry) - {"label", "data"}
    && forall key :: key in style ==> entry.Defined? && key in entry.value.own && style[key] == entry.value.own[key]
  }

  /** The body of the `data.map` callback in `getDataSets`. */
  function DataSetFor(item: Datum, seriesLabel: Js<string>, entry: Js<JsObject>): DataSetSpec
  {
    var copy := Clone(entry);
    DataSetSpec(copy.own - {"label", "data"}, seriesLabel, item)
  }

  /** `getDataSets(labels, data, series, colors)`: one dataset per series,
      labelled by the series name at the same index. Mapping over an
      `undefined` data value throws. */
  function GetDataSets(labels: Js<seq<string>>, data: Js<seq<Datum>>, series: seq<string>,
                       colors: Js<seq<JsObject>>, defaults: seq<JsObject>): (r: Outcome<Payload>)
    ensures r.Threw? <==> data.Undefined?
    ensures r.Ok? ==> r.value.DataSets? && r.value.labels == labels
    ensures r.Ok? ==> |r.value.datasets| == |data.value|
    ensures r.Ok? ==> forall i :: 0 <= i < |r.value.datasets| ==>
              && r.value.datasets[i].seriesLabel == At(series, i)
              && r.value.datasets[i].data == data.value[i]
              && CopiesOwnFields(r.value.datasets[i].style, At(Palette(colors, defaults), i))
  {
    match data
    case Undefined => Threw
    case Defined(d) =>
      var palette := Palette(colors, defaults);
      Ok(DataSets(labels, seq(|d|, i requires 0 <= i < |d| => DataSetFor(d[i], At(series, i), At(palette, i)))))
  }

  /** The segments for `labels[i..]`, in the order `labels.map` visits them.
      Reading `data[i]` of an `undefined` data value, or a property of a
      missing palette entry, throws. */
  function SegmentsFrom(labels: seq<string>, data: Js<seq<Datum>>, palette: seq<JsObject>, i: nat): (r: Outcome<seq<SegmentSpec>>)
    requires i <= |labels|
    ensures r.Ok? <==> i == |labels| || (data.Defined? && |labels| <= |palette|)
    ensures r.Ok? ==> |r.value| == |labels| - i
    ensures r.Ok? ==> forall k :: 0 <= k < |r.value| ==>
              && data.Defined? && i + k < |palette|
              && r.value[k] == SegmentSpec(labels[i + k], At(data.value, i + k),
                                           Read(palette[i + k], "strokeColor"),
                                           Read(palette[i + k], "pointHighlightStroke"))
    decreases |labels| - i
  {
    if i == |labels| then Ok([])
    else if data.Undefined? || i >= |palette| then Threw
    else
      match SegmentsFrom(labels, data, palette, i + 1)
      case Threw => Threw
      case Ok(rest) =>
        Ok([SegmentSpec(labels[i], At(data.value, i), Read(palette[i], "strokeColor"),
                        Read(palette[i], "pointHighlightStroke"))] + rest)
  }

  /** `getData(labels, data, colors)`: one segment per label. */
  function GetData(labels: Js<seq<string>>, data: Js<seq<Datum>>, colors: Js<seq<JsObject>>,
                   defaults: seq<JsObject>): (r: Outcome<Payload>)
    ensures r.Ok? <==>
              (labels.Defined? &&
               (|labels.value| == 0 || (data.Defined? && |labels.value| <= |Palette(colors, defaults)|)))
    ensures r.Ok? ==> r.value.Segments? && |r.value.items| == |labels.value|
    ensures r.Ok? ==> forall i :: 0 <= i < |r.value.items| ==>
              var entry := Palette(colors, defaults)[i];
              r.value.items[i] == SegmentSpec(labels.value[i], At(data.value, i),
                                              Read(entry, "strokeColor"), Read(entry, "pointHighlightStroke"))
  {
    match labels
    case Undefined => Threw
    case Defined(ls) =>
      match SegmentsFrom(ls, data, Palette(colors, defaults), 0)
      case Threw => Threw
      case Ok(items) => Ok(Segments(items))
  }
}

=== FILE: binding.dfy ===
/** One chart binding: the `data` and `chartType` watch callbacks of the
    directive's `link` function, seen as steps of a state machine over the
    chart the binding holds. Every call into the charting library is
    recorded as an event, so the log shows when charts are destroyed,
    created and redrawn. */
module Binding {
  import opened JsValues
  import opened ChartTypes
  import opened Decision
  import opened Adapters
  import opened ChartUpdate

  /** The bound scope attributes the callbacks read. */
  datatype Scope = Scope(
    data: Js<seq<Datum>>,
    labels: Js<seq<string>>,
    series: Js<seq<string>>,
    colors: Js<seq<JsObject>>,
    chartType: Js<string>)

  /** What the binding sees of the charting library: its global default
      palette and the constructor `new Chart(ctx)[type](payload, options)`. */
  datatype Library = Library(palette: seq<JsObject>, construct: (string, Payload) -> ChartObj)

  /** Calls into the library, and a TypeError escaping a callback. */
  datatype Event = Destroy | Create(kind: string) | Update | Throw

  /** The closure variable `chart`. After `destroy()` it keeps pointing at
      the destroyed chart until a new one is assigned, which only fails to
      happen when building the payload threw. */
  datatype Slot = Absent | Present(kind: string, chart: ChartObj, destroyed: bool)

  /** The slot after a callback and the events it emitted. */
  datatype Step = Step(slot: Slot, events: seq<Event>)

  /** A chart is alive on the canvas. */
  predicate IsLive(slot: Slot)
  {
    slot.Present? && !slot.destroyed
  }

  /** `type || scope.chartType` inside the `data` watch. */
  function EffectiveType(directive: Js<string>, scope: Scope): Js<string>
  {
    OrString(directive, scope.chartType)
  }

  /** The early returns of the `data` watch. The guard on the first series
      tests the directive's own type, not the effective type. */
  predicate DataIgnored(directive: Js<string>, scope: Scope)
  {
    || !IsNonEmptyArray(scope.data)
    || (HasDataSets(directive) && !IsTruthyCount(Length(scope.data.value[0])))
    || !IsTruthyString(EffectiveType(directive, scope))
  }

  /** The payload `createChart` builds before calling the constructor:
      datasets for a multi-series type, with `scope.series || []` naming
      them, and segments otherwise. */
  function CreatePayload(kind: string, scope: Scope, palette: seq<JsObject>): (r: Outcome<Payload>)
    ensures r.Ok? ==> (r.value.DataSets? <==> kind in MultiSeriesTypes)
    ensures kind in MultiSeriesTypes ==> (r.Threw? <==> scope.data.Undefined?)
    ensures kind in MultiSeriesTypes && r.Ok? ==>
              && r.value.labels == scope.labels
              && forall i :: 0 <= i < |r.value.datasets| ==>
                   r.value.datasets[i].seriesLabel ==
                     (if scope.series.Defined? && i < |scope.series.value| then Defined(scope.series.value[i]) else Undefined)
    ensures kind !in MultiSeriesTypes ==>
              (r.Ok? <==> scope.labels.Defined? &&
                          (|scope.labels.value| == 0 || (scope.data.Defined? && |scope.labels.value| <= |Palette(scope.colors, palette)|)))
  {
    if HasDataSets(Defined(kind)) then
      GetDataSets(scope.labels, scope.data, OrArray(scope.series, []), scope.colors, palette)
    else
      GetData(scope.labels, scope.data, scope.colors, palette)
  }

  /** `chart.destroy()` when the closure holds a chart. */
  function Teardown(slot: Slot): seq<Event>
  {
    if slot.Present? then [Destroy] else []
  }

  /** `if (chart) chart.destroy(); chart = createChart(kind, scope, elem);` */
  function Recreate(kind: string, scope: Scope, slot: Slot, lib: Library): (r: Step)
    ensures r.events == Teardown(slot) + [Create(kind)] || r.events == Teardown(slot) + [Throw]
    ensures Create(kind) in r.events <==> CreatePayload(kind, scope, lib.palette).Ok?
    ensures Create(kind) in r.events ==>
              r.slot == Present(kind, lib.construct(kind, CreatePayload(kind, scope, lib.palette).value), false)
    ensures Throw in r.events ==> r.slot == (if slot.Present? then slot.(destroyed := true) else Absent)
    ensures Wellformed(r.events, IsLive(slot)) && LiveAfter(r.events, IsLive(slot)) == IsLive(r.slot)
  {
    match CreatePayload(kind, scope, lib.palette)
    case Ok(p) =>
      var events := Teardown(slot) + [Create(kind)];
      assert slot.Present? ==> events[1..] == [Create(kind)];
      assert [Create(kind)][1..] == [];
      assert LiveAfter([Create(kind)], false);
      Step(Present(kind, lib.construct(kind, p), false), events)
    case Threw =>
      var events := Teardown(slot) + [Throw];
      assert slot.Present? ==> events[1..] == [Throw];
      assert [Throw][1..] == [];
      assert !LiveAfter([Throw], false) && Wellformed([Throw], false);
      Step(if slot.Present? then slot.(destroyed := true) else Absent, events)
  }

  /** Replays a log against one canvas: a `Create` is only allowed when no
      chart is alive, `Destroy` ends the life of the current one. */
  predicate Wellformed(log: seq<Event>, live: bool)
    decreases |log|
  {
    if |log| == 0 then true
    else
      match log[0]
      case Create(_) => !live && Wellformed(log[1..], true)
      case Destroy => Wellformed(log[1..], false)
      case _ => Wellformed(log[1..], live)
  }

  /** Whether a chart is alive after replaying `log`. */
  function LiveAfter(log: seq<Event>, live: bool): bool
    decreases |log|
  {
    if |log| == 0 then live
    else
      match log[0]
      case Create(_) => LiveAfter(log[1..], true)
      case Destroy => LiveAfter(log[1..], false)
      case _ => LiveAfter(log[1..], live)
  }

  /** The `data` watch callback, for a binding whose directive fixes the
      type `directive` (`undefined` for the generic directive), with
      `newVal` equal to `scope.data`. */
  function OnData(directive: Js<string>, scope: Scope, oldVal: Js<seq<Datum>>, slot: Slot, lib: Library): (r: Step)
    ensures r.events == [] <==> DataIgnored(directive, scope)
    ensures r.events == [] ==> r.slot == slot
    ensures Wellformed(r.events, IsLive(slot)) && LiveAfter(r.events, IsLive(slot)) == IsLive(r.slot)
    ensures Update in r.events ==> r.events == [Update]
    ensures !DataIgnored(directive, scope) && slot.Present? &&
            CanUpdateChart(EffectiveType(directive, scope), scope.data, oldVal) ==>
              var e := UpdateChart(slot.chart, EffectiveType(directive, scope), scope.data.value, scope.colors);
              && r.events == (if e.threw then [Throw] else [Update])
              && r.slot == slot.(chart := e.state)
    ensures !DataIgnored(directive, scope) &&
            !(slot.Present? && CanUpdateChart(EffectiveType(directive, scope), scope.data, oldVal)) ==>
              var kind := EffectiveType(directive, scope).value;
              var payload := CreatePayload(kind, scope, lib.palette);
              && (payload.Ok? ==> r.events == Teardown(slot) + [Create(kind)] &&
                                  r.slot == Present(kind, lib.construct(kind, payload.value), false))
              && (payload.Threw? ==> r.events == Teardown(slot) + [Throw] &&
                                     r.slot == (if slot.Present? then slot.(destroyed := true) else Absent))
  {
    if DataIgnored(directive, scope) then Step(slot, [])
    else
      var kind := EffectiveType(directive, scope);
      if slot.Present? && CanUpdateChart(kind, scope.data, oldVal) then
        var e := UpdateChart(slot.chart, kind, scope.data.value, scope.colors);
        Step(slot.(chart := e.state), if e.threw then [Throw] else [Update])
      else
        Recreate(kind.value, scope, slot, lib)
  }

  /** The `chartType` watch callback; `newVal` is `scope.chartType`. */
  function OnChartType(scope: Scope, slot: Slot, lib: Library): (r: Step)
    ensures r.events == [] <==> !IsTruthyString(scope.chartType)
    ensures r.events == [] ==> r.slot == slot
    ensures Wellformed(r.events, IsLive(slot)) && LiveAfter(r.events, IsLive(slot)) == IsLive(r.slot)
    ensures r.events != [] && slot.Present? ==> r.events[0] == Destroy
    ensures forall e :: e in r.events && e.Create? ==> e.kind == scope.chartType.value
    ensures Update !in r.events
    ensures IsTruthyString(scope.chartType) ==>
              var kind := scope.chartType.value;
              var payload := CreatePayload(kind, scope, lib.palette);
              && (payload.Ok? ==> r.events == Teardown(slot) + [Create(kind)] &&
                                  r.slot == Present(kind, lib.construct(kind, payload.value), false))
              && (payload.Threw? ==> r.events == Teardown(slot) + [Throw] &&
                                     r.slot == (if slot.Present? then slot.(destroyed := true) else Absent))
  {
    if !IsTruthyString(scope.chartType) then Step(slot, [])
    else Recreate(scope.chartType.value, scope, slot, lib)
  }

  /** A firing of one of the two watches. */
  datatype Signal =
    | DataChanged(scope: Scope, oldVal: Js<seq<Datum>>)
    | ChartTypeChanged(scope: Scope)

  function Fire(directive: Js<string>, lib: Library, slot: Slot, s: Signal): Step
  {
    match s
    case DataChanged(scope, oldVal) => OnData(directive, scope, oldVal, slot, lib)
    case ChartTypeChanged(scope) => OnChartType(scope, slot, lib)
  }

  /** The slot after a sequence of watch firings, and the concatenated log. */
  function Run(directive: Js<string>, lib: Library, slot: Slot, signals: seq<Signal>): Step
    decreases |signals|
  {
    if |signals| == 0 then Step(slot, [])
    else
      var first := Fire(directive, lib, slot, signals[0]);
      var rest := Run(directive, lib, first.slot, signals[1..]);
      Step(rest.slot, first.events + rest.events)
  }

  /** Replaying a concatenation replays its parts one after the other. */
  lemma {:induction false} ReplayAppend(a: seq<Event>, b: seq<Event>, live: bool)
    ensures Wellformed(a + b, live) <==> Wellformed(a, live) && Wellformed(b, LiveAfter(a, live))
    ensures LiveAfter(a + b, live) == LiveAfter(b, LiveAfter(a, live))
    decreases |a|
  {
    if |a| == 0 {
      assert a + b == b;
    } else {
      assert (a + b)[1..] == a[1..] + b;
      var next := match a[0] case Create(_) => true case Destroy => false case _ => live;
      ReplayAppend(a[1..], b, next);
    }
  }

  /** Every run of the watches keeps the log consistent with the slot: the
      log replays without a second live chart, ending alive exactly when
      the slot holds a live chart. */
  lemma {:induction false} RunKeepsLifecycle(directive: Js<string>, lib: Library, slot: Slot, signals: seq<Signal>)
    ensures var r := Run(directive, lib, slot, signals);
            Wellformed(r.events, IsLive(slot)) && LiveAfter(r.events, IsLive(slot)) == IsLive(r.slot)
    decreases |signals|
  {
    if |signals| > 0 {
      var first := Fire(directive, lib, slot, signals[0]);
      var rest := Run(directive, lib, first.slot, signals[1..]);
      RunKeepsLifecycle(directive, lib, first.slot, signals[1..]);
      ReplayAppend(first.events, rest.events, IsLive(slot));
    }
  }

  /** Between any two creations in a log there is a destruction. */
  ghost predicate OneLiveChart(log: seq<Event>)
  {
    forall i, j :: 0 <= i < j < |log| && log[i].Create? && log[j].Create? ==> Destroy in log[i + 1..j]
  }

  /** A log that replays without error never has two live charts at once;
      starting from a live chart, a destruction precedes every creation. */
  lemma {:induction false} WellformedHasOneLiveChart(log: seq<Event>, live: bool)
    requires Wellformed(log, live)
    ensures OneLiveChart(log)
    ensures live ==> forall j :: 0 <= j < |log| && log[j].Create? ==> Destroy in log[..j]
    decreases |log|
  {
    if |log| > 0 {
      var rest := log[1..];
      var next := match log[0] case Create(_) => true case Destroy => false case _ => live;
      WellformedHasOneLiveChart(rest, next);
      forall i, j | 0 <= i < j < |log| && log[i].Create? && log[j].Create?
        ensures Destroy in log[i + 1..j]
      {
        if i == 0 {
          assert rest[j - 1].Create?;
          assert rest[..j - 1] == log[i + 1..j];
        } else {
          assert rest[i - 1].Create? && rest[j - 1].Create?;
          assert rest[i - 1 + 1..j - 1] == log[i + 1..j];
        }
      }
      if live {
        forall j | 0 <= j < |log| && log[j].Create?
          ensures Destroy in log[..j]
        {
          if log[0] == Destroy {
            assert log[..j][0] == Destroy;
          } else {
            assert rest[j - 1].Create?;
            assert log[..j] == [log[0]] + rest[..j - 1];
          }
        }
      }
    }
  }

  /** The binding never holds two live charts: starting without a chart,
      every run's log destroys the current chart before creating the next. */
  lemma AtMostOneLiveChart(directive: Js<string>, lib: Library, signals: seq<Signal>)
    ensures OneLiveChart(Run(directive, lib, Absent, signals).events)
  {
    RunKeepsLifecycle(directive, lib, Absent, signals);
    WellformedHasOneLiveChart(Run(directive, lib, Absent, signals).events, false);
  }

  /** Single-series update after a compatible change: when the chart has one
      segment per old value and the palette covers every segment, every
      segment receives the new value at its index. */
  lemma SingleSeriesUpdateWritesEveryValue(t: Js<string>, newVal: seq<Datum>, oldVal: seq<Datum>,
                                          chart: ChartObj, colors: Js<seq<JsObject>>)
    requires !HasDataSets(t) && CanUpdateChart(t, Defined(newVal), Defined(oldVal))
    requires chart.SingleChart? && |chart.segments| == |oldVal|
    requires colors.Defined? ==> |chart.segments| <= |colors.value|
    ensures var r := UpdateChart(chart, t, newVal, colors);
            && !r.threw
            && forall i :: 0 <= i < |chart.segments| ==> r.state.segments[i].value == Defined(newVal[i])
  {
  }

  /** Multi-series update when the new value matches the chart's shape
      series by series: every point receives the new number at its place. */
  lemma MultiSeriesUpdateWritesEveryValue(t: Js<string>, values: seq<Datum>, chart: ChartObj, colors: Js<seq<JsObject>>)
    requires HasDataSets(t) && chart.MultiChart? && |values| == |chart.datasets|
    requires forall i :: 0 <= i < |values| ==> values[i].Row? && |values[i].points| == |chart.datasets[i].items|
    requires colors.Defined? ==> |chart.datasets| <= |colors.value|
    ensures var r := UpdateChart(chart, t, values, colors);
            && !r.threw
            && forall i, j :: 0 <= i < |values| && 0 <= j < |values[i].points| ==>
                 r.state.datasets[i].items[j].value == Defined(Scalar(values[i].points[j]))
  {
  }

  /** The compatibility test only looks at the first series: a line chart
      drawn from [[1, 2, 3], [4, 5, 6]] accepts [[1, 2, 3], [7, 8]] as an
      in-place update, and its last point then holds `undefined`. */
  lemma RaggedUpdateWritesUndefined(p: Item)
    ensures var before := [Row([1, 2, 3]), Row([4, 5, 6])];
            var after := [Row([1, 2, 3]), Row([7, 8])];
            var chart := MultiChart([ChartDataSet(map[], [p, p, p]), ChartDataSet(map[], [p, p, p])], 0);
            var r := UpdateChart(chart, Defined("Line"), after, Undefined);
            && CanUpdateChart(Defined("Line"), Defined(after), Defined(before))
            && !r.threw
            && r.state.datasets[1].items[1].value == Defined(Scalar(8))
            && r.state.datasets[1].items[2].value == Undefined
  {
  }

  /** The generic directive tests the first series only when its own type
      is a multi-series type: with `chartType` "Line" and an empty first
      series, the `data` watch still acts. */
  lemma GenericDirectiveSkipsFirstSeriesGuard(scope: Scope)
    requires scope.data == Defined([Row([])]) && scope.chartType == Defined("Line")
    ensures !DataIgnored(Undefined, scope)
    ensures DataIgnored(Defined("Line"), scope)
  {
  }

  /** After a failed rebuild the closure still holds the destroyed chart,
      and `chart` is truthy: a compatible `data` change then updates and
      redraws that destroyed chart in place instead of building a new one,
      and no chart is alive afterwards. */
  lemma UpdateReachesDestroyedChart(directive: Js<string>, scope: Scope, oldVal: Js<seq<Datum>>,
                                    kind: string, chart: ChartObj, lib: Library)
    requires !DataIgnored(directive, scope)
    requires CanUpdateChart(EffectiveType(directive, scope), scope.data, oldVal)
    requires Fits(chart, EffectiveType(directive, scope), scope.data.value, scope.colors)
    ensures var r := OnData(directive, scope, oldVal, Present(kind, chart, true), lib);
            && r.events == [Update]
            && !IsLive(r.slot)
            && r.slot.chart.redraws == chart.redraws + 1
  {
  }

  /** When building the payload throws after `destroy()`, the closure keeps
      the destroyed chart, and the next recreation destroys it a second
      time before creating the new chart. */
  lemma FailedCreateKeepsDestroyedChart(chart: ChartObj, lib: Library, scope: Scope)
    requires scope.chartType == Defined("Line") && scope.data == Undefined
    ensures var first := OnChartType(scope, Present("Pie", chart, false), lib);
            && first.events == [Destroy, Throw]
            && first.slot == Present("Pie", chart, true)
            && OnChartType(scope.(data := Defined([])), first.slot, lib).events == [Destroy, Create("Line")]
  {
  }
}

=== FILE: chart_types.dfy ===
/** Classification of the library's chart types into multi-series types,
    drawn from datasets, and single-series types, drawn from segments. */
module ChartTypes {
  import opened JsValues

  /** The types whose `data` binding is a sequence of series. */
  const MultiSeriesTypes: seq<string> := ["Line", "Bar", "Radar"]

  /** The types drawn from one flat sequence of segments. */
  const SingleSeriesTypes: seq<string> := ["Doughnut", "Pie", "PolarArea"]

  /** `Array.prototype.indexOf` with strict equality: the first position of
      `x` in `s`, or -1 when it does not occur. */
  function IndexOf<T(==)>(s: seq<T>, x: T): (r: int)
    ensures -1 <= r < |s|
    ensures r == -1 <==> x !in s
    ensures 0 <= r ==> s[r] == x && forall k :: 0 <= k < r ==> s[k] != x
    decreases |s|
  {
    if |s| == 0 then -1
    else if s[0] == x then 0
    else
      var k := IndexOf(s[1..], x);
      if k == -1 then -1 else k + 1
  }

  /** `hasDataSets(type)`. `undefined` never occurs in the list of names. */
  function HasDataSets(t: Js<string>): (r: bool)
    ensures r <==> t.Defined? && t.value in MultiSeriesTypes
    ensures t.Defined? && t.value in SingleSeriesTypes ==> !r
  {
    match t
    case Undefined => false
    case Defined(name) => IndexOf(MultiSeriesTypes, name) > -1
  }
}

=== FILE: chart_update.dfy ===
/** In-place update of a live chart: new values are written into the
    existing points, bars or segments, the five style fields are refreshed
    from the bound palette, and the chart is redrawn once. The chart object
    itself belongs to the charting library and is modelled as an abstract
    record of its mutable parts. */
module ChartUpdate {
  import opened JsValues
  import opened ChartTypes

  /** The five style fields `updateColors` overwrites. */
  const StyleFields: set<string> := {"fillColor", "highlightColor", "strokeColor", "pointColor", "pointStrokeColor"}

  /** A point or bar of a dataset, or a segment of a single-series chart. */
  datatype Item = Item(value: Js<Datum>, style: Props)

  /** A dataset of a multi-series chart: its style and its points or bars. */
  datatype ChartDataSet = ChartDataSet(style: Props, items: seq<Item>)

  /** The library's chart object: Line, Bar and Radar charts hold datasets,
      Doughnut, Pie and PolarArea charts hold segments; `redraws` counts
      calls of `update()`. */
  datatype ChartObj =
    | MultiChart(datasets: seq<ChartDataSet>, redraws: nat)
    | SingleChart(segments: seq<Item>, redraws: nat)

  /** The state left by a sequence of writes and whether a TypeError ended
      it early; writes made before the throw stay in place. */
  datatype Effect<T> = Effect(state: T, threw: bool)

  /** `after` is `before` with exactly the five style fields taken from
      `color`, every other field kept. */
  ghost predicate Recolored(before: Props, after: Props, color: JsObject)
  {
    && after.Keys == before.Keys + StyleFields
    && (forall key :: key in StyleFields ==> after[key] == Read(color, key))
    && (forall key :: key in before && key !in StyleFields ==> after[key] == before[key])
  }

  /** `updateColors(item, color)`: a TypeError when the palette entry is
      `undefined`. */
  function UpdateColors(style: Props, color: Js<JsObject>): (r: Outcome<Props>)
    ensures r.Threw? <==> color.Undefined?
    ensures r.Ok? ==> Recolored(style, r.value, color.value)
  {
    match color
    case Undefined => Threw
    case Defined(c) =>
      Ok(style["fillColor" := Read(c, "fillColor")]
              ["highlightColor" := Read(c, "highlightColor")]
              ["strokeColor" := Read(c, "strokeColor")]
              ["pointColor" := Read(c, "pointColor")]
              ["pointStrokeColor" := Read(c, "pointStrokeColor")])
  }

  /** The colours step of dataset or segment `i`: skipped when no colours
      are bound (an empty bound array still counts as bound). */
  function ColorsStep(style: Props, i: nat, colors: Js<seq<JsObject>>): Outcome<Props>
  {
    if colors.Defined? then UpdateColors(style, At(colors.value, i)) else Ok(style)
  }

  /** Writes `row[j]` into point `j` for every point; with `row` undefined
      the first read `undefined[0]` throws before any write. */
  function SetPoints(items: seq<Item>, row: Js<Datum>): Effect<seq<Item>>
  {
    if |items| == 0 then Effect(items, false)
    else
      match row
      case Undefined => Effect(items, true)
      case Defined(d) => Effect(seq(|items|, j requires 0 <= j < |items| => items[j].(value := Index(d, j))), false)
  }

  /** Dataset `i` can be updated without a TypeError. */
  predicate DataSetFits(d: ChartDataSet, i: nat, values: seq<Datum>, colors: Js<seq<JsObject>>)
  {
    && (colors.Defined? ==> i < |colors.value|)
    && (|d.items| > 0 ==> i < |values|)
  }

  /** `after` is dataset `i` once updated: recoloured from palette entry `i`
      when colours are bound, point `j` holding `values[i][j]`, and nothing
      else changed. */
  ghost predicate DataSetUpdated(before: ChartDataSet, after: ChartDataSet, i: nat, values: seq<Datum>, colors: Js<seq<JsObject>>)
  {
    && (colors.Defined? ==> i < |colors.value| && Recolored(before.style, after.style, colors.value[i]))
    && (colors.Undefined? ==> after.style == before.style)
    && |after.items| == |before.items|
    && forall j :: 0 <= j < |before.items| ==>
         i < |values| && after.items[j] == before.items[j].(value := Index(values[i], j))
  }

  /** `after` is dataset `i` as a TypeError leaves it: no point was written,
      because either the palette entry was missing, so nothing was written
      at all, or the first read `values[i][0]` threw after the recolouring. */
  ghost predicate DataSetFailed(before: ChartDataSet, after: ChartDataSet, i: nat, colors: Js<seq<JsObject>>)
  {
    && after.items == before.items
    && (if colors.Defined? && i < |colors.value| then Recolored(before.style, after.style, colors.value[i])
        else after.style == before.style)
  }

  /** One iteration of `chart.datasets.forEach` in `updateChart`. */
  function UpdateDataSet(d: ChartDataSet, i: nat, values: seq<Datum>, colors: Js<seq<JsObject>>): (r: Effect<ChartDataSet>)
    ensures |r.state.items| == |d.items|
    ensures r.threw <==> !DataSetFits(d, i, values, colors)
    ensures !r.threw ==> DataSetUpdated(d, r.state, i, values, colors)
    ensures r.threw ==> DataSetFailed(d, r.state, i, colors)
  {
    match ColorsStep(d.style, i, colors)
    case Threw => Effect(d, true)
    case Ok(style) =>
      var points := SetPoints(d.items, At(values, i));
      Effect(ChartDataSet(style, points.state), points.threw)
  }

  /** `forEach` over datasets `i..`, stopping at the first TypeError. */
  function UpdateDataSetsFrom(ds: seq<ChartDataSet>, i: nat, values: seq<Datum>, colors: Js<seq<JsObject>>): (r: Effect<seq<ChartDataSet>>)
    requires i <= |ds|
    ensures |r.state| == |ds|
    ensures forall k :: 0 <= k < |ds| ==> |r.state[k].items| == |ds[k].items|
    ensures forall k :: 0 <= k < i ==> r.state[k] == ds[k]
    ensures !r.threw <==> forall k :: i <= k < |ds| ==> DataSetFits(ds[k], k, values, colors)
    ensures !r.threw ==> forall k :: i <= k < |ds| ==> DataSetUpdated(ds[k], r.state[k], k, values, colors)
    ensures r.threw ==> exists f :: i <= f < |ds| && StoppedAt(ds, r.state, i, f, values, colors)
    decreases |ds| - i
  {
    if i == |ds| then Effect(ds, false)
    else
      var e := UpdateDataSet(ds[i], i, values, colors);
      if e.threw then
        assert StoppedAt(ds, ds[i := e.state], i, i, values, colors);
        Effect(ds[i := e.state], true)
      else
        var r := UpdateDataSetsFrom(ds[i := e.state], i + 1, values, colors);
        assert r.threw ==> exists f :: i <= f < |ds| && StoppedAt(ds, r.state, i, f, values, colors) by {
          if r.threw {
            var f :| i + 1 <= f < |ds| && StoppedAt(ds[i := e.state], r.state, i + 1, f, values, colors);
            StoppedAtExtends(ds, e.state, r.state, i, f, values, colors);
          }
        }
        r
  }

  /** The loop over datasets `i..` stopped at dataset `f`: the datasets
      before it were fully updated, `f` itself kept its points, and the
      ones after it are untouched. */
  ghost predicate StoppedAt(ds: seq<ChartDataSet>, after: seq<ChartDataSet>, i: nat, f: nat, values: seq<Datum>, colors: Js<seq<JsObject>>)
    requires i <= f < |ds| == |after|
  {
    && !DataSetFits(ds[f], f, values, colors)
    && DataSetFailed(ds[f], after[f], f, colors)
    && (forall k :: i <= k < f ==> DataSetFits(ds[k], k, values, colors) && DataSetUpdated(ds[k], after[k], k, values, colors))
    && (forall k :: f < k < |ds| ==> after[k] == ds[k])
  }

  /** A stop found from dataset `i + 1` is a stop from dataset `i` once
      dataset `i` was updated without a throw. */
  lemma StoppedAtExtends(ds: seq<ChartDataSet>, updated: ChartDataSet, after: seq<ChartDataSet>, i: nat, f: nat,
                         values: seq<Datum>, colors: Js<seq<JsObject>>)
    requires i + 1 <= f < |ds| == |after|
    requires DataSetFits(ds[i], i, values, colors) && DataSetUpdated(ds[i], updated, i, values, colors)
    requires after[i] == updated
    requires StoppedAt(ds[i := updated], after, i + 1, f, values, colors)
    ensures StoppedAt(ds, after, i, f, values, colors)
  {
    forall k | i <= k < f
      ensures DataSetFits(ds[k], k, values, colors) && DataSetUpdated(ds[k], after[k], k, values, colors)
    {
      if k > i {
        assert ds[i := updated][k] == ds[k];
      }
    }
    forall k | f < k < |ds|
      ensures after[k] == ds[k]
    {
      assert ds[i := updated][k] == ds[k];
    }
    assert ds[i := updated][f] == ds[f];
  }

  /** `after` is segment `i` once updated: value `values[i]` (`undefined`
      past the end), recoloured when colours are bound. */
  ghost predicate SegmentUpdated(before: Item, after: Item, i: nat, values: seq<Datum>, colors: Js<seq<JsObject>>)
  {
    && after.value == At(values, i)
    && (colors.Defined? ==> i < |colors.value| && Recolored(before.style, after.style, colors.value[i]))
    && (colors.Undefined? ==> after.style == before.style)
  }

  /** `chart.segments.forEach` from segment `i`: the value is written before
      the colours, so a missing palette entry leaves that segment's new
      value in place. */
  function UpdateSegmentsFrom(segs: seq<Item>, i: nat, values: seq<Datum>, colors: Js<seq<JsObject>>): (r: Effect<seq<Item>>)
    requires i <= |segs|
    ensures |r.state| == |segs|
    ensures forall k :: 0 <= k < i ==> r.state[k] == segs[k]
    ensures r.threw <==> colors.Defined? && i < |segs| && |colors.value| < |segs|
    ensures !r.threw ==> forall k :: i <= k < |segs| ==> SegmentUpdated(segs[k], r.state[k], k, values, colors)
    ensures r.threw && i <= |colors.value| ==>
              && (forall k :: i <= k < |colors.value| ==> SegmentUpdated(segs[k], r.state[k], k, values, colors))
              && r.state[|colors.value|] == segs[|colors.value|].(value := At(values, |colors.value|))
              && (forall k :: |colors.value| < k < |segs| ==> r.state[k] == segs[k])
    decreases |segs| - i
  {
    if i == |segs| then Effect(segs, false)
    else
      var s := segs[i].(value := At(values, i));
      match ColorsStep(s.style, i, colors)
      case Threw => Effect(segs[i := s], true)
      case Ok(style) => UpdateSegmentsFrom(segs[i := s.(style := style)], i + 1, values, colors)
  }

  /** The update succeeds: the chart has the structure the type expects and
      every dataset or segment finds its palette entry and values. */
  predicate Fits(chart: ChartObj, t: Js<string>, values: seq<Datum>, colors: Js<seq<JsObject>>)
  {
    if HasDataSets(t) then
      chart.MultiChart? && forall i :: 0 <= i < |chart.datasets| ==> DataSetFits(chart.datasets[i], i, values, colors)
    else
      chart.SingleChart? && (colors.Defined? ==> |chart.segments| <= |colors.value|)
  }

  /** Same kind of chart, same number of datasets, points and segments. */
  predicate SameShape(a: ChartObj, b: ChartObj)
  {
    match a
    case MultiChart(ds, _) =>
      b.MultiChart? && |b.datasets| == |ds| &&
      forall i :: 0 <= i < |ds| ==> |b.datasets[i].items| == |ds[i].items|
    case SingleChart(segs, _) =>
      b.SingleChart? && |b.segments| == |segs|
  }

  /** `updateChart(chart, type, values, scope)`. For a multi-series type
      `chart.datasets` must exist, otherwise `chart.segments` must; a
      missing one throws before any write. `update()` runs once, and only
      when nothing threw. */
  function UpdateChart(chart: ChartObj, t: Js<string>, values: seq<Datum>, colors: Js<seq<JsObject>>): (r: Effect<ChartObj>)
    ensures r.threw <==> !Fits(chart, t, values, colors)
    ensures SameShape(chart, r.state)
    ensures r.state.redraws == if r.threw then chart.redraws else chart.redraws + 1
    ensures !r.threw && HasDataSets(t) ==>
              forall i :: 0 <= i < |chart.datasets| ==>
                DataSetUpdated(chart.datasets[i], r.state.datasets[i], i, values, colors)
    ensures !r.threw && !HasDataSets(t) ==>
              forall i :: 0 <= i < |chart.segments| ==>
                SegmentUpdated(chart.segments[i], r.state.segments[i], i, values, colors)
    ensures HasDataSets(t) != chart.MultiChart? ==> r.state == chart
    ensures r.threw && HasDataSets(t) && chart.MultiChart? ==>
              exists f :: 0 <= f < |chart.datasets| && StoppedAt(chart.datasets, r.state.datasets, 0, f, values, colors)
    ensures r.threw && !HasDataSets(t) && chart.SingleChart? ==>
              var stop := |colors.value|;
              && (forall k :: 0 <= k < stop ==> SegmentUpdated(chart.segments[k], r.state.segments[k], k, values, colors))
              && r.state.segments[stop] == chart.segments[stop].(value := At(values, stop))
              && (forall k :: stop < k < |chart.segments| ==> r.state.segments[k] == chart.segments[k])
  {
    if HasDataSets(t) then
      match chart
      case SingleChart(_, _) => Effect(chart, true)
      case MultiChart(ds, n) =>
        var e := UpdateDataSetsFrom(ds, 0, values, colors);
        if e.threw then Effect(MultiChart(e.state, n), true) else Effect(MultiChart(e.state, n + 1), false)
    else
      match chart
      case MultiChart(_, _) => Effect(chart, true)
      case SingleChart(segs, n) =>
        var e := UpdateSegmentsFrom(segs, 0, values, colors);
        if e.threw then Effect(SingleChart(e.state, n), true) else Effect(SingleChart(e.state, n + 1), false)
  }

  /** Two palette writes from the same entry leave the fields as the first
      one did. */
  lemma RecoloredTwice(a: Props, b: Props, c: Props, color: JsObject)
    requires Recolored(a, b, color) && Recolored(b, c, color)
    ensures c == b
  {
  }

  /** Updating a chart twice with the same values and palette leaves the
      same contents as updating it once; only the redraw count grows. */
  lemma {:induction false} UpdateChartIdempotent(chart: ChartObj, t: Js<string>, values: seq<Datum>, colors: Js<seq<JsObject>>)
    requires !UpdateChart(chart, t, values, colors).threw
    ensures var once := UpdateChart(chart, t, values, colors).state;
            var twice := UpdateChart(once, t, values, colors);
            !twice.threw && twice.state == once.(redraws := once.redraws + 1)
  {
    var once := UpdateChart(chart, t, values, colors).state;
    var twice := UpdateChart(once, t, values, colors);
    if HasDataSets(t) {
      var ds, ds1 := chart.datasets, once.datasets;
      forall i | 0 <= i < |ds1|
        ensures DataSetFits(ds1[i], i, values, colors)
      {
        assert DataSetFits(ds[i], i, values, colors);
      }
      assert Fits(once, t, values, colors);
      var ds2 := twice.state.datasets;
      forall i | 0 <= i < |ds1|
        ensures ds2[i] == ds1[i]
      {
        assert DataSetUpdated(ds[i], ds1[i], i, values, colors);
        assert DataSetUpdated(ds1[i], ds2[i], i, values, colors);
        if colors.Defined? {
          RecoloredTwice(ds[i].style, ds1[i].style, ds2[i].style, colors.value[i]);
        }
        assert ds2[i].items == ds1[i].items;
      }
      assert ds2 == ds1;
    } else {
      var segs, segs1 := chart.segments, once.segments;
      assert Fits(once, t, values, colors);
      var segs2 := twice.state.segments;
      forall i | 0 <= i < |segs1|
        ensures segs2[i] == segs1[i]
      {
        assert SegmentUpdated(segs[i], segs1[i], i, values, colors);
        assert SegmentUpdated(segs1[i], segs2[i], i, values, colors);
        if colors.Defined? {
          RecoloredTwice(segs[i].style, segs1[i].style, segs2[i].style, colors.value[i]);
        }
      }
      assert segs2 == segs1;
    }
  }
}

=== FILE: decision.dfy ===
/** The update-versus-recreate heuristic: an existing chart is mutated in
    place only when the new data has the same outer length as the old and,
    for multi-series types, the same length of the first series. */
module Decision {
  import opened JsValues
  import opened ChartTypes

  /** `canUpdateChart(type, newVal, oldVal)`. Only the first series' length
      stands in for the shape of a multi-series value. */
  function CanUpdateChart(t: Js<string>, newVal: Js<seq<Datum>>, oldVal: Js<seq<Datum>>): (r: bool)
    ensures !IsNonEmptyArray(newVal) || !IsNonEmptyArray(oldVal) ==> !r
    ensures IsNonEmptyArray(newVal) && IsNonEmptyArray(oldVal) && !HasDataSets(t) ==>
              (r <==> |newVal.value| == |oldVal.value|)
    ensures IsNonEmptyArray(newVal) && IsNonEmptyArray(oldVal) && HasDataSets(t) ==>
              (r <==> |newVal.value| == |oldVal.value| && Length(newVal.value[0]) == Length(oldVal.value[0]))
  {
    if IsNonEmptyArray(newVal) && IsNonEmptyArray(oldVal) then
      if HasDataSets(t) then
        |newVal.value| == |oldVal.value| && Length(newVal.value[0]) == Length(oldVal.value[0])
      else
        |newVal.value| == |oldVal.value|
    else
      false
  }

  /** The decision does not depend on which side is old and which is new. */
  lemma CanUpdateChartSymmetric(t: Js<string>, a: Js<seq<Datum>>, b: Js<seq<Datum>>)
    ensures CanUpdateChart(t, a, b) == CanUpdateChart(t, b, a)
  {
  }

  /** A non-empty value compared with itself is always updatable. */
  lemma CanUpdateChartReflexive(t: Js<string>, v: Js<seq<Datum>>)
    ensures CanUpdateChart(t, v, v) <==> IsNonEmptyArray(v)
  {
  }

  /** Series after the first may change length without forcing a recreate:
      shapes [3, 3] and [3, 4] of a line chart are judged compatible. */
  lemma RaggedChangeIsUpdatable()
    ensures CanUpdateChart(Defined("Line"),
                           Defined([Row([1, 2, 3]), Row([4, 5, 6, 7])]),
                           Defined([Row([1, 2, 3]), Row([4, 5, 6])]))
  {
  }

  /** Any two multi-series values of equal outer length whose first series
      agree in length are judged compatible, whatever the other series hold. */
  lemma OnlyFirstSeriesIsCompared(t: Js<string>, newVal: seq<Datum>, oldVal: seq<Datum>)
    requires HasDataSets(t)
    requires 0 < |newVal| == |oldVal|
    requires Length(newVal[0]) == Length(oldVal[0])
    ensures CanUpdateChart(t, Defined(newVal), Defined(oldVal))
  {
  }
}

=== FILE: js_values.dfy ===
/**
  The slice of JavaScript value semantics the directive's logic depends on:
  `undefined`, truthiness, array reads past the end, own versus inherited
  properties, and a TypeError escaping a callback. Bound data elements are
  numbers or arrays of numbers.
 */
module JsValues {

  /** A value that may be `undefined`: an unbound scope attribute, a missing
      property, or an array read past the end. */
  datatype Js<+T> = Undefined | Defined(value: T)

  /** The outcome of code that may throw a TypeError (reading a property of
      `undefined`): nothing inside the directive catches it. */
  datatype Outcome<+T> = Ok(value: T) | Threw

  /** `s[i]` on an array: `undefined` past the end. */
  function At<T>(s: seq<T>, i: nat): Js<T>
  {
    if i < |s| then Defined(s[i]) else Undefined
  }

  /** `v && v.length` for a value that is an array or `undefined`: every
      array is truthy, its length is truthy when non-zero. */
  predicate IsNonEmptyArray<T>(v: Js<seq<T>>)
  {
    v.Defined? && |v.value| > 0
  }

  /** Truthiness of a `length` read: `undefined` and 0 are falsy. */
  predicate IsTruthyCount(v: Js<nat>)
  {
    v.Defined? && v.value > 0
  }

  /** Truthiness of a string-or-undefined value: the empty string is falsy. */
  predicate IsTruthyString(v: Js<string>)
  {
    v.Defined? && v.value != ""
  }

  /** `a || b` on two string-or-undefined values. */
  function OrString(a: Js<string>, b: Js<string>): Js<string>
  {
    if IsTruthyString(a) then a else b
  }

  /** `a || fallback` where `a` is an array or `undefined`; an empty array
      is truthy and is kept. */
  function OrArray<T>(a: Js<seq<T>>, fallback: seq<T>): seq<T>
  {
    if a.Defined? then a.value else fallback
  }

  /** Property bag of an object; a key mapped to `Undefined` is an own
      property that holds `undefined`. */
  type Props = map<string, Js<string>>

  /** A plain object: its own enumerable properties and the enumerable
      properties it inherits through its prototype chain. */
  datatype JsObject = JsObject(own: Props, inherited: Props)

  /** `o[key]`: an own property shadows an inherited one. */
  function Read(o: JsObject, key: string): Js<string>
  {
    if key in o.own then o.own[key]
    else if key in o.inherited then o.inherited[key]
    else Undefined
  }

  /** One element of a bound `data` array: a number (one segment of a
      single-series chart) or an array of numbers (one series of a
      multi-series chart). */
  datatype Datum = Scalar(n: int) | Row(points: seq<int>)

  /** `d.length`: a number has no length. */
  function Length(d: Datum): Js<nat>
  {
    match d
    case Scalar(_) => Undefined
    case Row(p) => Defined(|p|)
  }

  /** `d[j]`: a number has no indexed properties. */
  function Index(d: Datum, j: nat): Js<Datum>
  {
    match d
    case Scalar(_) => Undefined
    case Row(p) => if j < |p| then Defined(Scalar(p[j])) else Undefined
  }
}
